=== FILE: README.md ===
# Market sales and products — a Dafny model

This project models the service layer of a small inventory and sales backend
(`com.sd3.market`). It covers `ProductService`, which gives create, read,
update and delete on products, and `SaleService`, which records sales
against product stock:

- A sale is recorded only for a positive quantity of an existing product
  whose stock covers it. Stock then drops by exactly that quantity.
- A sale is charged the quantity-tiered discounted value: 10% off above 20
  units, 5% off from 11 to 20 units, and full price otherwise.
- Updating a sale re-prices it and adjusts stock as the source does. This
  includes its defects (see "## Findings").

The persistent state is one value `Db`. It holds:

- the product table and the sale table, each a map from id to record;
- the database sequence `entity_seq`, which both entity classes draw their
  ids from.

Every service method is a pure function from a `Db` and its inputs to its
reply and the next `Db` (a method for the two `getAll` reads). Read-only
methods return only the reply. A Java `null` reply is `None`. The clock
(`LocalDateTime.now()`) is a `now` parameter. Quantities and stock are Java `int`: they are modelled as the
32-bit subset type `Int32`, with the source's wrap-around written out where
it can happen. Prices and sale values are Java `double`: they are modelled as
exact `real`s.

Modules, one per component:

| file | module | models |
|---|---|---|
| java_int.dfy | `JavaInt` | the range and wrap-around of Java `int` |
| options.dfy | `Options` | `null` replies |
| entities.dfy | `Entities` | `Product`, `Sale`, `ProductDto`, `SaleDto` |
| repository.dfy | `Repository` | the two tables, the shared id sequence, `save` of a new row, `findAll` |
| pricing.dfy | `Pricing` | `setValuesOfSale` (discount tiers) |
| product_service.dfy | `ProductService` | `ProductService` |
| sale_service.dfy | `SaleService` | `SaleService` as written |
| ledger.dfy | `Ledger` | stock accounting: stock + units sold per product, and the no-negative-stock invariant |
| sale_update_findings.dfy | `SaleUpdateFindings` | the defects of `updateSale` on concrete states, and a corrected update |

Two points about the code itself:

- Two rules are enforced only in `createSale`
  (SaleService.java lines 53 and 57): stock never goes negative, and a
  sale's quantity is positive. `addProduct` and `updateProduct` check
  neither rule. `updateSale` does not check that the quantity is positive,
  and its stock guard (line 90) tests the old quantity, not the change.
  `Ledger.Healthy` states those rules, and the lemmas say which operations keep them.
- The discount is the usual `price·q·(1 − rate)`. The code computes
  `price·q − price·q·rate` (SaleService.java lines 118-129), and
  `Pricing.SaleValue` proves the two equal over exact reals.

## Model

| member | source | states |
|---|---|---|
| JavaInt.Wrap32 | src/main/java/com/sd3/market/services/SaleService.java:86 | Java's `int` result of an exact difference is in the 32-bit range and congruent to it modulo 2^32. It equals the difference when that fits. |
| JavaInt.WrapOfDifference | src/main/java/com/sd3/market/services/SaleService.java:86-101 | `stock - (new - old)` in Java arithmetic lands on the exact `stock - new + old` wrapped once. |
| Entities.ProductOf | src/main/java/com/sd3/market/services/ProductService.java:44-66 | Turning a product DTO into a product and back reproduces the DTO. The DTO's id is not part of the stored record. |
| Entities.SaleOf | src/main/java/com/sd3/market/services/SaleService.java:40-45 | Turning a sale DTO into a sale and back reproduces the DTO. |
| Repository.EmptyDb | src/main/java/com/sd3/market/entities/AbstractEntity.java:17-21 | A fresh schema has no rows and satisfies the sequence invariant. |
| Repository.InsertProduct | src/main/java/com/sd3/market/entities/AbstractEntity.java:17-21 | Saving a new product stores it under an id that no product and no sale uses. Nothing else changes, and the sequence invariant is kept. |
| Repository.InsertSale | src/main/java/com/sd3/market/entities/Sale.java:11-15 | Saving a new sale stores it under an id that no sale and no product uses, since the sequence is shared. Nothing else changes, and the invariant is kept. |
| Repository.Enumerate | src/main/java/com/sd3/market/services/ProductService.java:18 | The model lists every key of the table exactly once, in ascending order, and nothing else (`findAll` leaves the order to the database). |
| Pricing.DiscountRate | src/main/java/com/sd3/market/services/SaleService.java:120-125 | The rate is one of 10%, 5% or 0%. It is 10% exactly when the quantity exceeds 20, 5% exactly when it is 11 to 20, and 0% exactly when it is at most 10. |
| Pricing.SaleValue | src/main/java/com/sd3/market/services/SaleService.java:117-132 | The value the code computes (gross minus gross·rate) equals `price·q·(1 − rate)`. |
| Pricing.SetValuesOfSale | src/main/java/com/sd3/market/services/SaleService.java:117-132 | Pricing a sale changes only its value, which becomes the discounted value for its quantity. Product, quantity and date are kept. |
| Pricing.SaleValueByTier | src/main/java/com/sd3/market/services/SaleService.java:117-132 | The value is 90% of the gross above 20 units, 95% from 11 to 20 units, and the full gross otherwise. |
| Pricing.SaleValueBounds | src/main/java/com/sd3/market/services/SaleService.java:117-132 | For a non-negative price and quantity, the value lies between 90% of the gross and the gross. So it is never negative. |
| Pricing.TierExamples | src/main/java/com/sd3/market/services/SaleService.java:120-125 | 10 units pay full price, 11 units get 5% off and 21 units get 10% off. |
| Pricing.TwentyOneCostLessThanTwenty | src/main/java/com/sd3/market/services/SaleService.java:120-125 | The tiers are not monotone: at any positive price, 21 units cost less than 20. |
| ProductService.GetProductById | src/main/java/com/sd3/market/services/ProductService.java:29-41 | The reply is present exactly when the id is stored. It then carries that id and exactly the stored name, description, price and stock. |
| ProductService.GetAllProducts | src/main/java/com/sd3/market/services/ProductService.java:17-27 | There is one DTO per stored product, with no id repeated and every stored product present. Each DTO's fields equal the stored ones. |
| ProductService.AddProduct | src/main/java/com/sd3/market/services/ProductService.java:44-56 | The DTO's fields are stored under a fresh id and returned with it. Existing products and all sales are unchanged. |
| ProductService.UpdateProduct | src/main/java/com/sd3/market/services/ProductService.java:58-77 | An unknown id returns none and changes nothing. Otherwise only that product is overwritten with the DTO's fields, and the reply is the DTO under the product's own id. |
| ProductService.DeleteProduct | src/main/java/com/sd3/market/services/ProductService.java:80-87 | The reply is true exactly when the id was stored. Only that product is removed, and sales are kept. |
| ProductService.AddThenGet | src/main/java/com/sd3/market/services/ProductService.java:44-56 | Reading back the id that an add reported gives the added product. |
| ProductService.AddKeepsOthers | src/main/java/com/sd3/market/services/ProductService.java:44-56 | After an add, every other id reads as before. |
| ProductService.UpdateThenGet | src/main/java/com/sd3/market/services/ProductService.java:58-77 | After an update, the product reads as the DTO under its own id, and every other product reads as before. |
| ProductService.UpdateIgnoresDtoId | src/main/java/com/sd3/market/services/ProductService.java:61-66 | The DTO's id field has no effect on an update. |
| ProductService.UpdateIdempotent | src/main/java/com/sd3/market/services/ProductService.java:61-66 | Applying the same update twice gives the same reply and state as applying it once. |
| ProductService.DeleteThenGet | src/main/java/com/sd3/market/services/ProductService.java:80-87 | After a delete the product reads as absent, and every other product reads as before. |
| SaleService.GetSaleById | src/main/java/com/sd3/market/services/SaleService.java:36-48 | The reply is present exactly when the id is stored. It then carries that id and exactly the stored sale. |
| SaleService.GetAllSales | src/main/java/com/sd3/market/services/SaleService.java:24-34 | There is one DTO per stored sale, with no id repeated and every stored sale present. Each DTO's fields equal the stored ones. |
| SaleService.CreateSale | src/main/java/com/sd3/market/services/SaleService.java:51-79 | A non-positive quantity, an absent product or insufficient stock returns none and changes nothing. Otherwise a sale with the requested product and quantity, the discounted value and date `now` is stored under a fresh id and returned. Only that product's stock changes, and it drops by the quantity. |
| SaleService.CreateSaleStock | src/main/java/com/sd3/market/services/SaleService.java:57-68 | After a successful sale, the product keeps its name, description and price. Its stock drops by exactly the quantity and stays non-negative if it was. Every other product is untouched. |
| SaleService.CreateSaleNoWrap | src/main/java/com/sd3/market/services/SaleService.java:57-68 | After a successful `createSale`, the product's new stock equals Java's 32-bit `quantityInStock - quantityProduct`: under the guard the subtraction never wraps around. |
| SaleService.UpdateSale | src/main/java/com/sd3/market/services/SaleService.java:81-115 | An unknown id returns none and changes nothing. Otherwise the sale always takes the DTO's product id and date `now` and is saved. Quantity, value and stock change only when the quantity differs and the guard on the old quantity passes. Then the sale is repriced and the new product's stock drops by the wrapped difference. |
| SaleService.UpdateSaleStockDelta | src/main/java/com/sd3/market/services/SaleService.java:86-101 | On a quantity change where the guard at line 90 passes, the product's new stock is `stock − (new − old)` modulo 2^32. It is exactly that when the value fits. |
| SaleService.DeleteSale | src/main/java/com/sd3/market/services/SaleService.java:134-141 | The reply is true exactly when the id was stored. Only that sale is removed, and product stock is never touched. |
| SaleService.CreateThenGet | src/main/java/com/sd3/market/services/SaleService.java:70-75 | A created sale reads back under its id exactly as it was returned. |
| SaleService.DeleteThenGet | src/main/java/com/sd3/market/services/SaleService.java:134-141 | After a delete the sale reads as absent, and every other sale reads as before. |
| Ledger.SoldChange | src/main/java/com/sd3/market/services/SaleService.java:61 | Changing the sale table at one key changes any per-product unit count by exactly the change at that key. |
| Ledger.CreateSaleConserves | src/main/java/com/sd3/market/services/SaleService.java:57-68 | A sale moves its units from stock into the sale table. Every product's stock plus units sold is unchanged. |
| Ledger.CreateSaleKeepsHealthy | src/main/java/com/sd3/market/services/SaleService.java:53-57 | Creating a sale never makes stock negative and never records a non-positive quantity. |
| Ledger.DeleteSaleDropsHoldings | src/main/java/com/sd3/market/services/SaleService.java:134-141 | Deleting a sale does not restock. The product loses exactly the deleted quantity from its stock-plus-sold total. |
| Ledger.UpdateSaleKeptProductConserves | src/main/java/com/sd3/market/services/SaleService.java:85-101 | The update as written is balanced when the sale keeps its product and nothing wraps. |
| Ledger.ProductOperationsKeepHealthy | src/main/java/com/sd3/market/services/ProductService.java:44-87 | Deleting a product keeps the no-negative-stock invariant. Adding or updating one keeps it when the written stock is non-negative. |
| SaleUpdateFindings.StockGoesNegative | src/main/java/com/sd3/market/services/SaleService.java:90 | Counterexample: the guard on the old quantity lets stock 5 fall to −2. |
| SaleUpdateFindings.GuardRefusesDecrease | src/main/java/com/sd3/market/services/SaleService.java:85-101 | Counterexample: with stock 0, lowering a 5-unit sale to 3 fails the guard, yet the sale is returned with its 5 units and stock stays 0. The corrected update stores 3 units and sets stock to 2. |
| SaleUpdateFindings.NonPositiveQuantityAccepted | src/main/java/com/sd3/market/services/SaleService.java:85-91 | Counterexample: a quantity of −4 is accepted, recorded with a negative value and restocked. |
| SaleUpdateFindings.ProductSwitchBreaksConservation | src/main/java/com/sd3/market/services/SaleService.java:84-88 | Counterexample: moving a sale to another product leaves both stocks unchanged. One product's stock-plus-sold total drops by 5 and the other's rises by 5. |
| SaleUpdateFindings.Transfer | src/main/java/com/sd3/market/services/SaleService.java:95-101 | Returning units to one product and taking units from another changes only those two stock levels, each by exactly its share. It succeeds exactly when both results are non-negative `int`s. |
| SaleUpdateFindings.UpdateSaleCorrected | src/main/java/com/sd3/market/services/SaleService.java:81-115 | The corrected update succeeds exactly when the sale exists, the new quantity is positive, and either nothing changes or the new product exists and both affected stock levels stay non-negative `int`s. On failure it changes nothing. On success it stores the requested product and quantity with date `now`, and a changed sale is repriced at the new product's price, while an unchanged one keeps its value. On success the product table keeps its ids, names, descriptions and prices. The old product gets the sale's previous units back, the new product gives up the new quantity, and no other stock changes. |
| SaleUpdateFindings.CorrectedKeepsHealthy | src/main/java/com/sd3/market/services/SaleService.java:85-101 | The corrected update never makes stock negative and never records a non-positive quantity. |
| SaleUpdateFindings.CorrectedConserves | src/main/java/com/sd3/market/services/SaleService.java:84-101 | The corrected update keeps every product's stock-plus-sold total, including when the sale changes product. |
| SaleUpdateFindings.CorrectedAgreesWhenProductKept | src/main/java/com/sd3/market/services/SaleService.java:85-101 | The corrected update gives the same reply and state as the update as written in any state: for an unknown sale, for an update that changes nothing and keeps a positive quantity, and for a positive new quantity of the same product that passes the line-90 guard and leaves a non-negative `int` stock. |

## Left out

- Controllers (`ProductController`, `SaleController`): the HTTP status mapping, the exception-to-500 translation and the API documentation annotations are web plumbing.
- The JPA repositories: they are reduced to two maps and a sequence counter. Persistence failures are not modelled.
- The audit fields `createdAt`, `updatedAt` and `active`, and the JSON date format of `SaleDto`: they play no part in the business rules.
- `LocalDateTime.now()`: it is the `now` parameter, and timestamps are plain integers that are only stored.
- IEEE-754 `double` rounding of prices and sale values: all values are exact reals.
- The `System.out.println` in `getSaleById`: it has no effect on state or reply.
- Concurrent requests: the read-then-write race on stock between concurrent requests is out of scope, because each call is one atomic step.
- Java `null`: null DTO fields, null boxed `Price`, a null `Long` id, and a null DTO argument are not modelled.
- Ids are unbounded integers, so the 64-bit `long` range of the sequence is not modelled.
- ProductService.GetAllProducts: requires the sequence invariant `Repository.Valid`, which every reachable state has. It fixes ascending id order, where the source leaves the order to the database.
- SaleService.GetAllSales: the same invariant and the same fixed order as `GetAllProducts`.
- Ledger.Sold: counts only sales under keys in `[1, nextId)`. In a state satisfying `Repository.Valid` that is every sale.

## Findings

| source | as written | input that shows it | evidently intended | confidence | as-written member | corrected member |
|---|---|---|---|---|---|---|
| src/main/java/com/sd3/market/services/SaleService.java:90 | the stock guard compares stock with the sale's old quantity | product stock 5, sale of 3 units, update to 10 units: 5 ≥ 3 passes and stock becomes −2; conversely, stock 0 and a sale of 5 lowered to 3: 0 ≥ 5 fails, the sale keeps 5 units and is still returned (`GuardRefusesDecrease`) | stock must cover the extra units taken (new − old) | high, not executed | SaleUpdateFindings.StockGoesNegative | SaleUpdateFindings.UpdateSaleCorrected |
| src/main/java/com/sd3/market/services/SaleService.java:84-88 | the sale's product id is replaced before the product lookup, so the whole adjustment goes to the new product | two products with stock 10, a sale of 5 units of product 1, updated to product 2 with 5 units: both stocks stay 10 | the old units go back to the old product and the new quantity is taken from the new one | medium, not executed | SaleUpdateFindings.ProductSwitchBreaksConservation | SaleUpdateFindings.UpdateSaleCorrected |
| src/main/java/com/sd3/market/services/SaleService.java:85-91 | no check that the new quantity is positive, unlike creation at line 53 | sale of 3 units updated to −4: recorded as −4 units, value −8.0, and 7 units are put back into stock | a non-positive quantity is refused, as in `createSale` | medium, not executed | SaleUpdateFindings.NonPositiveQuantityAccepted | SaleUpdateFindings.UpdateSaleCorrected |

`SaleUpdateFindings.UpdateSaleCorrected` fixes all three. It is proved to
keep stock non-negative (`CorrectedKeepsHealthy`) and to conserve every
product's stock plus units sold (`CorrectedConserves`). In any state, for an unknown
sale, an update that changes nothing and keeps a positive quantity, and a
same-product quantity change that the
source's guard passes without driving stock negative, it is proved to
behave exactly like the source (`CorrectedAgreesWhenProductKept`).

=== FILE: entities.dfy ===
/**
  The two persistent records, `Product` and `Sale`, and the DTOs the services
  exchange with their callers. A stored record does not carry its own id: the
  id is the key it is stored under, and a DTO pairs the two.

  The audit fields (`createdAt`, `updatedAt`, `active`) are not modelled.
 */
module Entities {
  import opened JavaInt

  /** A primary key (a Java `long`), drawn from the sequence shared by both tables. */
  type Id = int

  /** An instant read from the clock. The model only stores timestamps. */
  type Timestamp = int

  /** A row of `TB_PRODUCTS`. The price is a Java `double`, modelled exactly. */
  datatype Product = Product(name: string, description: string, price: real, stock: Int32)

  /** A row of `TB_SALES`: which product, how many units, the charged value, when. */
  datatype Sale = Sale(idProduct: Id, quantity: Int32, saleValue: real, date: Timestamp)

  datatype ProductDto = ProductDto(id: Id, name: string, description: string, price: real, stock: Int32)

  datatype SaleDto = SaleDto(id: Id, idProduct: Id, quantity: Int32, saleValue: real, date: Timestamp)

  /** The DTO the services build from a stored product: every field copied. */
  function ProductDtoOf(id: Id, p: Product): ProductDto {
    ProductDto(id, p.name, p.description, p.price, p.stock)
  }

  /** The product a DTO describes; the DTO's id is not part of it. */
  function ProductOf(d: ProductDto): (p: Product)
    ensures ProductDtoOf(d.id, p) == d
  {
    Product(d.name, d.description, d.price, d.stock)
  }

  /** The DTO the services build from a stored sale: every field copied. */
  function SaleDtoOf(id: Id, s: Sale): SaleDto {
    SaleDto(id, s.idProduct, s.quantity, s.saleValue, s.date)
  }

  /** The sale a DTO describes; the DTO's id is not part of it. */
  function SaleOf(d: SaleDto): (s: Sale)
    ensures SaleDtoOf(d.id, s) == d
  {
    Sale(d.idProduct, d.quantity, d.saleValue, d.date)
  }
}

=== FILE: java_int.dfy ===
/**
  Java's 32-bit `int`: the range of a value and the two's-complement
  wrap-around of `+` and `-` on it. Quantities and stock levels are `int`
  fields in the entities, so every place where the services subtract them
  goes through `Wrap32`.
 */
module JavaInt {

  const MinInt32: int := -0x8000_0000
  const MaxInt32: int := 0x7fff_ffff
  const Modulus32: int := 0x1_0000_0000

  /** A value a Java `int` can hold. */
  type Int32 = x: int | MinInt32 <= x <= MaxInt32

  predicate InInt32(x: int) {
    MinInt32 <= x <= MaxInt32
  }

  /** The `int` Java produces for the exact result `x` of an addition or subtraction. */
  function Wrap32(x: int): (r: Int32)
    ensures InInt32(x) ==> r == x
    ensures (x - r) % Modulus32 == 0
  {
    (x - MinInt32) % Modulus32 + MinInt32
  }

  /** Subtracting an already wrapped value gives the same `int` as wrapping the
      exact difference once: Java's `stock - (q1 - q0)` equals `stock - q1 + q0`
      taken modulo 2^32. */
  lemma WrapOfDifference(a: int, b: int)
    ensures Wrap32(a - Wrap32(b)) == Wrap32(a - b)
  {
  }
}

=== FILE: ledger.dfy ===
/**
  Stock accounting across the two tables. For every product, its stock plus
  the units its recorded sales account for is the product's "holdings": a
  sale moves units from stock into a sale record and should leave that sum
  where it was. Also the state invariant the services are meant to keep:
  no negative stock, no sale of a non-positive quantity.
 */
module Ledger {
  import opened JavaInt
  import opened Entities
  import opened Repository
  import SaleService
  import ProductService

  /** The units of product `pid` recorded by the sale stored under key `k`, if any. */
  function Units(sales: map<Id, Sale>, pid: Id, k: Id): int {
    if k in sales && sales[k].idProduct == pid then sales[k].quantity else 0
  }

  /** The units of `pid` recorded by the sales stored under keys in `[lo, hi)`. */
  function SoldBetween(sales: map<Id, Sale>, pid: Id, lo: Id, hi: Id): int
    decreases hi - lo
  {
    if hi <= lo then 0 else SoldBetween(sales, pid, lo, hi - 1) + Units(sales, pid, hi - 1)
  }

  /** The units of `pid` recorded by all sales (every key lies in `[1, nextId)` in a valid state). */
  function Sold(db: Db, pid: Id): int {
    SoldBetween(db.sales, pid, 1, db.nextId)
  }

  /** Stock on hand plus units recorded as sold. */
  function Holdings(db: Db, pid: Id): int
    requires pid in db.products
  {
    db.products[pid].stock + Sold(db, pid)
  }

  /** `after` keeps the same products as `before`, each with the same holdings. */
  predicate Conserves(before: Db, after: Db) {
    && after.products.Keys == before.products.Keys
    && forall pid :: pid in before.products && pid in after.products ==>
         Holdings(after, pid) == Holdings(before, pid)
  }

  /** Every stock level is non-negative and every sale is of a positive quantity. */
  predicate Healthy(db: Db) {
    && (forall pid :: pid in db.products ==> db.products[pid].stock >= 0)
    && (forall id :: id in db.sales ==> db.sales[id].quantity > 0)
  }

  /** Changing the sales table at one key `k0` changes the units counted over
      a key range by exactly the change at `k0`, if `k0` is in the range. */
  lemma {:induction false} SoldChange(a: map<Id, Sale>, b: map<Id, Sale>, pid: Id, lo: Id, hi: Id, k0: Id)
    requires forall k :: lo <= k < hi && k != k0 ==> Units(a, pid, k) == Units(b, pid, k)
    ensures SoldBetween(b, pid, lo, hi)
            == SoldBetween(a, pid, lo, hi) + (if lo <= k0 < hi then Units(b, pid, k0) - Units(a, pid, k0) else 0)
    decreases hi - lo
  {
    if lo < hi {
      SoldChange(a, b, pid, lo, hi - 1, k0);
    }
  }

  /** Writing sale `s` under an existing key `id` (or any key within the
      sequence's range) changes the units sold of every product by the
      difference between the new and the old record. */
  lemma SoldAfterWrite(db: Db, db': Db, id: Id, s: Sale, pid: Id)
    requires Valid(db) && 1 <= id < db.nextId
    requires db'.sales == db.sales[id := s] && db'.nextId == db.nextId
    ensures Sold(db', pid) == Sold(db, pid) + Units(db'.sales, pid, id) - Units(db.sales, pid, id)
  {
    SoldChange(db.sales, db'.sales, pid, 1, db.nextId, id);
  }

  /** A successful sale moves its units from stock into the sales table: every
      product's holdings are unchanged. */
  lemma CreateSaleConserves(db: Db, dto: SaleDto, now: Timestamp)
    requires Valid(db)
    ensures Conserves(db, SaleService.CreateSale(db, dto, now).db)
  {
    var r := SaleService.CreateSale(db, dto, now);
    if r.reply.Some? {
      var n := db.nextId;
      forall pid | pid in db.products && pid in r.db.products
        ensures Holdings(r.db, pid) == Holdings(db, pid)
      {
        SoldChange(db.sales, r.db.sales, pid, 1, n, n);
        assert Units(db.sales, pid, n) == 0;
      }
    }
  }

  /** A successful sale keeps the state healthy. */
  lemma CreateSaleKeepsHealthy(db: Db, dto: SaleDto, now: Timestamp)
    requires Healthy(db)
    ensures Healthy(SaleService.CreateSale(db, dto, now).db)
  {
  }

  /** Deleting a sale does not return its units to stock: the product it named
      loses exactly the deleted quantity from its holdings. */
  lemma DeleteSaleDropsHoldings(db: Db, id: Id, pid: Id)
    requires Valid(db) && id in db.sales && pid in db.products
    ensures var after := SaleService.DeleteSale(db, id).db;
            Holdings(after, pid) == Holdings(db, pid) - Units(db.sales, pid, id)
  {
    var after := SaleService.DeleteSale(db, id).db;
    SoldChange(db.sales, after.sales, pid, 1, db.nextId, id);
  }

  /** The as-written update is sound when the sale stays with its product and
      no 32-bit arithmetic wraps: holdings are conserved. */
  lemma UpdateSaleKeptProductConserves(db: Db, id: Id, dto: SaleDto, now: Timestamp)
    requires Valid(db) && id in db.sales
    requires dto.idProduct == db.sales[id].idProduct
    requires InInt32(dto.quantity - db.sales[id].quantity)
    requires dto.idProduct in db.products ==>
               InInt32(db.products[dto.idProduct].stock - (dto.quantity - db.sales[id].quantity))
    ensures Conserves(db, SaleService.UpdateSale(db, id, dto, now).db)
  {
    var r := SaleService.UpdateSale(db, id, dto, now);
    forall pid | pid in db.products && pid in r.db.products
      ensures Holdings(r.db, pid) == Holdings(db, pid)
    {
      SoldAfterWrite(db, r.db, id, r.db.sales[id], pid);
    }
  }

  /** Product operations never touch the sales table and keep the state
      healthy as long as the stock they write is non-negative. */
  lemma ProductOperationsKeepHealthy(db: Db, id: Id, dto: ProductDto)
    requires Healthy(db)
    ensures Healthy(ProductService.DeleteProduct(db, id).db)
    ensures dto.stock >= 0 ==> Healthy(ProductService.AddProduct(db, dto).db)
    ensures dto.stock >= 0 ==> Healthy(ProductService.UpdateProduct(db, id, dto).db)
  {
  }
}

=== FILE: options.dfy ===
/** The optional result of a service call: Java's `null` return is `None`. */
module Options {

  datatype Option<+T> = None | Some(value: T)
}

=== FILE: pricing.dfy ===
/**
  The quantity-tiered discount of `SaleService.setValuesOfSale`: more than 20
  units earn 10% off, 11 to 20 units earn 5% off, anything else pays full
  price. The source computes in `double`; the model uses exact reals.
 */
module Pricing {
  import opened Entities

  /** The fraction of the gross value taken off for `quantity` units. */
  function DiscountRate(quantity: int): (rate: real)
    ensures rate == 0.10 || rate == 0.05 || rate == 0.0
    ensures rate == 0.10 <==> quantity > 20
    ensures rate == 0.05 <==> 10 < quantity <= 20
    ensures rate == 0.0 <==> quantity <= 10
  {
    if quantity > 20 then 0.10
    else if quantity > 10 then 0.05
    else 0.0
  }

  /** The value charged for `quantity` units at unit price `price`: the gross
      value minus the discount taken from it, as the source computes it. */
  function SaleValue(price: real, quantity: int): (value: real)
    ensures value == price * quantity as real * (1.0 - DiscountRate(quantity))
  {
    var original := price * quantity as real;
    original - original * DiscountRate(quantity)
  }

  /** `setValuesOfSale`: the sale keeps its product, quantity and date and is
      charged the discounted value at the product's price. */
  function SetValuesOfSale(sale: Sale, price: real): (priced: Sale)
    ensures priced.idProduct == sale.idProduct
    ensures priced.quantity == sale.quantity
    ensures priced.date == sale.date
    ensures priced.saleValue == SaleValue(price, sale.quantity)
  {
    sale.(saleValue := SaleValue(price, sale.quantity))
  }

  /** The three tiers written out as fractions of the gross value. */
  lemma SaleValueByTier(price: real, quantity: int)
    ensures quantity > 20 ==> SaleValue(price, quantity) == price * quantity as real * 0.9
    ensures 10 < quantity <= 20 ==> SaleValue(price, quantity) == price * quantity as real * 0.95
    ensures quantity <= 10 ==> SaleValue(price, quantity) == price * quantity as real
  {
  }

  /** For a non-negative price and quantity the discount never exceeds 10% of
      the gross value and never makes the value negative. */
  lemma SaleValueBounds(price: real, quantity: int)
    requires price >= 0.0 && quantity >= 0
    ensures 0.0 <= price * quantity as real * 0.9 <= SaleValue(price, quantity) <= price * quantity as real
  {
    var gross := price * quantity as real;
    assert gross >= 0.0 by {
      assert quantity as real >= 0.0;
    }
    SaleValueByTier(price, quantity);
  }

  /** The worked cases: 10 units pay full price, 11 units get 5% off, 21 units get 10% off. */
  lemma TierExamples(price: real)
    ensures SaleValue(price, 10) == 10.0 * price
    ensures SaleValue(price, 11) == 11.0 * price * 0.95
    ensures SaleValue(price, 21) == 21.0 * price * 0.9
  {
  }

  /** The tiers are not monotone at the upper boundary: at any positive unit
      price, 21 units cost less than 20 (18.9 against 19 unit prices). */
  lemma TwentyOneCostLessThanTwenty(price: real)
    requires price > 0.0
    ensures SaleValue(price, 21) < SaleValue(price, 20)
  {
  }
}

=== FILE: product_service.dfy ===
/**
  `ProductService`: create, read, update and delete on the product table. Each
  operation takes the database state and returns its reply together with the
  state it leaves; reads return only the reply. None of them touches a sale.
 */
module ProductService {
  import opened Options
  import opened Entities
  import opened Repository

  /** `getProductById`: the stored product under `id` as a DTO, or `None`. */
  function GetProductById(db: Db, id: Id): (r: Option<ProductDto>)
    ensures r.Some? <==> id in db.products
    ensures r.Some? ==> r.value.id == id && ProductOf(r.value) == db.products[id]
  {
    if id in db.products then Some(ProductDtoOf(id, db.products[id])) else None
  }

  /** `getAllProducts`: one DTO per stored product, fields copied unchanged. */
  method GetAllProducts(db: Db) returns (r: seq<ProductDto>)
    requires Valid(db)
    ensures |r| == |db.products|
    ensures forall i :: 0 <= i < |r| ==> r[i].id in db.products && ProductOf(r[i]) == db.products[r[i].id]
    ensures forall id :: id in db.products ==> exists i :: 0 <= i < |r| && r[i].id == id
    ensures forall i, j :: 0 <= i < j < |r| ==> r[i].id != r[j].id
  {
    var ids := Enumerate(db.products, db.nextId);
    r := seq(|ids|, i requires 0 <= i < |ids| => ProductDtoOf(ids[i], db.products[ids[i]]));
    assert forall i :: 0 <= i < |r| ==> r[i].id == ids[i] && ProductOf(r[i]) == db.products[ids[i]];
    forall id | id in db.products
      ensures exists i :: 0 <= i < |r| && r[i].id == id
    {
      var i :| 0 <= i < |ids| && ids[i] == id;
      assert r[i].id == id;
    }
  }

  /** `addProduct`: stores the DTO's fields as a new product under a fresh id
      from the sequence (the DTO's own id is ignored) and returns it. */
  function AddProduct(db: Db, dto: ProductDto): (r: Response<ProductDto>)
    ensures ProductOf(r.reply) == ProductOf(dto)
    ensures r.db.products == db.products[r.reply.id := ProductOf(dto)]
    ensures r.db.sales == db.sales
    ensures Valid(db) ==> r.reply.id !in db.products && Valid(r.db)
  {
    var saved := InsertProduct(db, ProductOf(dto));
    Response(ProductDtoOf(saved.reply, ProductOf(dto)), saved.db)
  }

  /** `updateProduct`: overwrites name, description, price and stock of an
      existing product, keeping its id; an unknown id changes nothing. */
  function UpdateProduct(db: Db, id: Id, dto: ProductDto): (r: Response<Option<ProductDto>>)
    ensures id !in db.products ==> r == Response(None, db)
    ensures id in db.products ==>
      && r.reply == Some(dto.(id := id))
      && r.db == db.(products := db.products[id := ProductOf(dto)])
    ensures Valid(db) ==> Valid(r.db)
  {
    if id in db.products then
      var saved := ProductOf(dto);
      Response(Some(ProductDtoOf(id, saved)), db.(products := db.products[id := saved]))
    else
      Response(None, db)
  }

  /** `deleteProduct`: removes the product if it exists and says whether it did.
      Sales that refer to it are kept. */
  function DeleteProduct(db: Db, id: Id): (r: Response<bool>)
    ensures r.reply <==> id in db.products
    ensures r.db.products == db.products - {id}
    ensures r.db.sales == db.sales && r.db.nextId == db.nextId
    ensures !r.reply ==> r.db == db
    ensures Valid(db) ==> Valid(r.db)
  {
    if id in db.products then
      Response(true, db.(products := db.products - {id}))
    else
      Response(false, db)
  }

  /** Reading a product back right after adding it yields what was added,
      under the id the add reported. */
  lemma AddThenGet(db: Db, dto: ProductDto)
    ensures GetProductById(AddProduct(db, dto).db, AddProduct(db, dto).reply.id)
            == Some(AddProduct(db, dto).reply)
  {
  }

  /** Adding a product leaves every existing product readable as before. */
  lemma AddKeepsOthers(db: Db, dto: ProductDto, id: Id)
    requires Valid(db)
    ensures GetProductById(AddProduct(db, dto).db, id)
            == if id == AddProduct(db, dto).reply.id then Some(AddProduct(db, dto).reply)
               else GetProductById(db, id)
  {
  }

  /** After an update, reading the product gives the DTO's fields under the
      product's own id; every other product reads as before. */
  lemma UpdateThenGet(db: Db, id: Id, dto: ProductDto, other: Id)
    requires id in db.products
    ensures GetProductById(UpdateProduct(db, id, dto).db, id) == Some(dto.(id := id))
    ensures other != id ==> GetProductById(UpdateProduct(db, id, dto).db, other) == GetProductById(db, other)
  {
  }

  /** The id field of the DTO plays no part in an update. */
  lemma UpdateIgnoresDtoId(db: Db, id: Id, dto: ProductDto, anyId: Id)
    ensures UpdateProduct(db, id, dto.(id := anyId)) == UpdateProduct(db, id, dto)
  {
  }

  /** Applying the same update twice leaves the same state as applying it once. */
  lemma UpdateIdempotent(db: Db, id: Id, dto: ProductDto)
    ensures UpdateProduct(UpdateProduct(db, id, dto).db, id, dto) == UpdateProduct(db, id, dto)
  {
  }

  /** After a delete the product is gone and every other product reads as before. */
  lemma DeleteThenGet(db: Db, id: Id, other: Id)
    ensures GetProductById(DeleteProduct(db, id).db, id) == None
    ensures other != id ==> GetProductById(DeleteProduct(db, id).db, other) == GetProductById(db, other)
  {
  }
}

=== FILE: repository.dfy ===
/**
  The persistent state behind `ProductRepository` and `SaleRepository`: two
  tables keyed by id and the database sequence `entity_seq` that both entity
  classes draw their ids from. The services are pure functions from one `Db`
  to the next.
 */
module Repository {
  import opened Entities

  datatype Db = Db(products: map<Id, Product>, sales: map<Id, Sale>, nextId: Id)

  /** What a service call hands back to its caller, and the state it leaves. */
  datatype Response<+T> = Response(reply: T, db: Db)

  /** The sequence starts at 1 and is ahead of every id it has handed out; since
      both tables share it, no id is used in both. */
  predicate Valid(db: Db) {
    && 1 <= db.nextId
    && (forall id :: id in db.products ==> 1 <= id < db.nextId)
    && (forall id :: id in db.sales ==> 1 <= id < db.nextId)
    && db.products.Keys !! db.sales.Keys
  }

  /** A freshly created schema: no rows, sequence at its start value. */
  function EmptyDb(): (db: Db)
    ensures Valid(db) && db.products == map[] && db.sales == map[]
  {
    Db(map[], map[], 1)
  }

  /** `productRepository.save` of a new product: the sequence supplies its id. */
  function InsertProduct(db: Db, p: Product): (r: Response<Id>)
    ensures r.db.products == db.products[r.reply := p]
    ensures r.db.sales == db.sales
    ensures Valid(db) ==> r.reply !in db.products && r.reply !in db.sales && Valid(r.db)
  {
    Response(db.nextId, db.(products := db.products[db.nextId := p], nextId := db.nextId + 1))
  }

  /** `saleRepository.save` of a new sale: the sequence supplies its id. */
  function InsertSale(db: Db, s: Sale): (r: Response<Id>)
    ensures r.db.sales == db.sales[r.reply := s]
    ensures r.db.products == db.products
    ensures Valid(db) ==> r.reply !in db.products && r.reply !in db.sales && Valid(r.db)
  {
    Response(db.nextId, db.(sales := db.sales[db.nextId := s], nextId := db.nextId + 1))
  }

  /** `findAll` on a table whose keys all lie in `[1, bound)`: every key exactly
      once. The queries carry no ORDER BY; the model fixes ascending id order. */
  method Enumerate<T>(m: map<Id, T>, bound: Id) returns (ids: seq<Id>)
    requires forall id :: id in m ==> 1 <= id < bound
    ensures forall i :: 0 <= i < |ids| ==> ids[i] in m
    ensures forall id :: id in m ==> id in ids
    ensures forall i, j :: 0 <= i < j < |ids| ==> ids[i] < ids[j]
    ensures |ids| == |m|
  {
    ids := [];
    var next := 1;
    while next < bound
      invariant forall i :: 0 <= i < |ids| ==> ids[i] in m && ids[i] < next
      invariant forall id :: id in m && id < next ==> id in ids
      invariant forall i, j :: 0 <= i < j < |ids| ==> ids[i] < ids[j]
    {
      if next in m {
        ids := ids + [next];
      }
      next := next + 1;
    }
    assert (set id | id in ids) == m.Keys;
    IncreasingCard(ids);
  }

  /** A strictly increasing sequence has as many elements as its set of values. */
  lemma {:induction false} IncreasingCard(s: seq<Id>)
    requires forall i, j :: 0 <= i < j < |s| ==> s[i] < s[j]
    ensures |set x | x in s| == |s|
  {
    if s != [] {
      var init := s[..|s| - 1];
      IncreasingCard(init);
      assert (set x | x in s) == (set x | x in init) + {s[|s| - 1]};
      assert s[|s| - 1] !in (set x | x in init);
    }
  }
}

=== FILE: sale_service.dfy ===
/**
  `SaleService`: reading, creating, updating and deleting sales. Creating and
  updating a sale read the product through `ProductService.GetProductById` and
  write its new stock back through `ProductService.UpdateProduct`, as the
  source does; the clock reading (`LocalDateTime.now()`) is the parameter `now`.

  `UpdateSale` models the source as written, including the defects listed in
  the README (see module `SaleUpdateFindings` for the corrected definition).
 */
module SaleService {
  import opened Options
  import opened JavaInt
  import opened Entities
  import opened Repository
  import opened Pricing
  import ProductService

  /** `getSaleById`: the stored sale under `id` as a DTO, or `None`. */
  function GetSaleById(db: Db, id: Id): (r: Option<SaleDto>)
    ensures r.Some? <==> id in db.sales
    ensures r.Some? ==> r.value.id == id && SaleOf(r.value) == db.sales[id]
  {
    if id in db.sales then Some(SaleDtoOf(id, db.sales[id])) else None
  }

  /** `getAllSales`: one DTO per stored sale, fields copied unchanged. */
  method GetAllSales(db: Db) returns (r: seq<SaleDto>)
    requires Valid(db)
    ensures |r| == |db.sales|
    ensures forall i :: 0 <= i < |r| ==> r[i].id in db.sales && SaleOf(r[i]) == db.sales[r[i].id]
    ensures forall id :: id in db.sales ==> exists i :: 0 <= i < |r| && r[i].id == id
    ensures forall i, j :: 0 <= i < j < |r| ==> r[i].id != r[j].id
  {
    var ids := Enumerate(db.sales, db.nextId);
    r := seq(|ids|, i requires 0 <= i < |ids| => SaleDtoOf(ids[i], db.sales[ids[i]]));
    assert forall i :: 0 <= i < |r| ==> r[i].id == ids[i] && SaleOf(r[i]) == db.sales[ids[i]];
    forall id | id in db.sales
      ensures exists i :: 0 <= i < |r| && r[i].id == id
    {
      var i :| 0 <= i < |ids| && ids[i] == id;
      assert r[i].id == id;
    }
  }

  /** The condition under which `createSale` records a sale: a positive
      quantity of an existing product whose stock covers it. */
  predicate CanSell(db: Db, idProduct: Id, quantity: int) {
    && quantity > 0
    && idProduct in db.products
    && db.products[idProduct].stock >= quantity
  }

  /** `createSale`: records a sale of `dto.quantity` units of product
      `dto.idProduct` at the discounted value and takes those units out of
      stock; without a positive quantity, the product, or enough stock it
      returns `None` and changes nothing. Only `idProduct` and `quantity` of
      the DTO are read. */
  function CreateSale(db: Db, dto: SaleDto, now: Timestamp): (r: Response<Option<SaleDto>>)
    ensures !CanSell(db, dto.idProduct, dto.quantity) ==> r == Response(None, db)
    ensures CanSell(db, dto.idProduct, dto.quantity) ==>
      var p := db.products[dto.idProduct];
      && r.reply.Some?
      && r.reply.value.idProduct == dto.idProduct
      && r.reply.value.quantity == dto.quantity
      && r.reply.value.saleValue == SaleValue(p.price, dto.quantity)
      && r.reply.value.date == now
      && r.db.sales == db.sales[r.reply.value.id := SaleOf(r.reply.value)]
      && r.db.products == db.products[dto.idProduct := p.(stock := p.stock - dto.quantity)]
      && r.db.nextId == db.nextId + 1
    ensures Valid(db) ==> Valid(r.db)
    ensures Valid(db) && r.reply.Some? ==> r.reply.value.id !in db.sales
  {
    if dto.quantity <= 0 then Response(None, db)
    else
      match ProductService.GetProductById(db, dto.idProduct)
      case None => Response(None, db)
      case Some(product) =>
        if product.stock < dto.quantity then Response(None, db)
        else
          var sale := SetValuesOfSale(Sale(dto.idProduct, dto.quantity, 0.0, now), product.price);
          var saved := InsertSale(db, sale);
          var left := product.stock - dto.quantity;
          var stocked := ProductService.UpdateProduct(saved.db, product.id,
            ProductDto(product.id, product.name, product.description, product.price, left));
          Response(Some(SaleDtoOf(saved.reply, sale)), stocked.db)
  }

  /** A successful sale takes exactly its quantity out of its product's stock,
      keeps that product's name, description and price, and leaves every other
      product as it was; stock that was non-negative stays non-negative. */
  lemma CreateSaleStock(db: Db, dto: SaleDto, now: Timestamp, pid: Id)
    requires CreateSale(db, dto, now).reply.Some?
    requires pid in db.products
    ensures pid in CreateSale(db, dto, now).db.products
    ensures var before := db.products[pid];
            var after := CreateSale(db, dto, now).db.products[pid];
            && after.name == before.name
            && after.description == before.description
            && after.price == before.price
            && after.stock == before.stock - (if pid == dto.idProduct then dto.quantity else 0)
            && (before.stock >= 0 ==> after.stock >= 0)
  {
  }

  /** The stock `createSale` writes back is Java's 32-bit
      `quantityInStock - quantityProduct`: under its guard the subtraction
      never wraps around. */
  lemma CreateSaleNoWrap(db: Db, dto: SaleDto, now: Timestamp)
    requires CreateSale(db, dto, now).reply.Some?
    ensures dto.idProduct in CreateSale(db, dto, now).db.products
    ensures CreateSale(db, dto, now).db.products[dto.idProduct].stock
            == Wrap32(db.products[dto.idProduct].stock - dto.quantity)
  {
  }

  /** The guard of `updateSale` as written: the product the sale now names
      exists and its stock is at least the sale's previous quantity. */
  predicate UpdateGuard(db: Db, idProduct: Id, oldQuantity: int) {
    idProduct in db.products && db.products[idProduct].stock >= oldQuantity
  }

  /** `updateSale` as written. The product id from the DTO replaces the sale's
      own before the product is looked up. When the quantity changes and the
      guard holds, the sale gets the new quantity, is repriced at that
      product's price, and that product's stock drops by the 32-bit
      difference of new and old quantity. The date is always refreshed and the
      sale always saved. An unknown sale id changes nothing. */
  function UpdateSale(db: Db, id: Id, dto: SaleDto, now: Timestamp): (r: Response<Option<SaleDto>>)
    ensures id !in db.sales ==> r == Response(None, db)
    ensures id in db.sales ==>
      && r.reply.Some?
      && r.reply.value.id == id
      && r.reply.value.idProduct == dto.idProduct
      && r.reply.value.date == now
      && r.db.sales == db.sales[id := SaleOf(r.reply.value)]
      && r.db.nextId == db.nextId
    ensures id in db.sales && (dto.quantity == db.sales[id].quantity || !UpdateGuard(db, dto.idProduct, db.sales[id].quantity)) ==>
      && r.reply.Some?
      && r.reply.value.quantity == db.sales[id].quantity
      && r.reply.value.saleValue == db.sales[id].saleValue
      && r.db.products == db.products
    ensures id in db.sales && dto.quantity != db.sales[id].quantity && UpdateGuard(db, dto.idProduct, db.sales[id].quantity) ==>
      var p := db.products[dto.idProduct];
      && r.reply.Some?
      && r.reply.value.quantity == dto.quantity
      && r.reply.value.saleValue == SaleValue(p.price, dto.quantity)
      && r.db.products == db.products[dto.idProduct :=
           p.(stock := Wrap32(p.stock - Wrap32(dto.quantity - db.sales[id].quantity)))]
    ensures Valid(db) ==> Valid(r.db)
  {
    if id !in db.sales then Response(None, db)
    else
      var existing := db.sales[id].(idProduct := dto.idProduct);
      var lookup := ProductService.GetProductById(db, existing.idProduct);
      if dto.quantity != existing.quantity && lookup.Some? && lookup.value.stock >= existing.quantity then
        var diff := Wrap32(dto.quantity - existing.quantity);
        var product := lookup.value;
        var repriced := SetValuesOfSale(existing.(quantity := dto.quantity), product.price);
        var stocked := ProductService.UpdateProduct(db, product.id,
          ProductDto(product.id, product.name, product.description, product.price, Wrap32(product.stock - diff)));
        var saved := repriced.(date := now);
        Response(Some(SaleDtoOf(id, saved)), stocked.db.(sales := stocked.db.sales[id := saved]))
      else
        var saved := existing.(date := now);
        Response(Some(SaleDtoOf(id, saved)), db.(sales := db.sales[id := saved]))
  }

  /** When the quantity changes and nothing overflows, the stock of the
      product the sale now names drops by exactly `new - old`; in every case it
      equals that exact value taken modulo 2^32. */
  lemma UpdateSaleStockDelta(db: Db, id: Id, dto: SaleDto, now: Timestamp)
    requires id in db.sales
    requires dto.quantity != db.sales[id].quantity
    requires UpdateGuard(db, dto.idProduct, db.sales[id].quantity)
    ensures var exact := db.products[dto.idProduct].stock - (dto.quantity - db.sales[id].quantity);
            var after := UpdateSale(db, id, dto, now).db.products[dto.idProduct].stock;
            && after == Wrap32(exact)
            && (InInt32(exact) ==> after == exact)
  {
    WrapOfDifference(db.products[dto.idProduct].stock, dto.quantity - db.sales[id].quantity);
  }

  /** `deleteSale`: removes the sale if it exists and says whether it did.
      Product stock is never touched: the units are not returned. */
  function DeleteSale(db: Db, id: Id): (r: Response<bool>)
    ensures r.reply <==> id in db.sales
    ensures r.db.sales == db.sales - {id}
    ensures r.db.products == db.products && r.db.nextId == db.nextId
    ensures !r.reply ==> r.db == db
    ensures Valid(db) ==> Valid(r.db)
  {
    if id in db.sales then
      Response(true, db.(sales := db.sales - {id}))
    else
      Response(false, db)
  }

  /** After a successful sale it can be read back under the id it was given. */
  lemma CreateThenGet(db: Db, dto: SaleDto, now: Timestamp)
    requires CreateSale(db, dto, now).reply.Some?
    ensures GetSaleById(CreateSale(db, dto, now).db, CreateSale(db, dto, now).reply.value.id)
            == CreateSale(db, dto, now).reply
  {
  }

  /** After a delete the sale is gone and every other sale reads as before. */
  lemma DeleteThenGet(db: Db, id: Id, other: Id)
    ensures GetSaleById(DeleteSale(db, id).db, id) == None
    ensures other != id ==> GetSaleById(DeleteSale(db, id).db, other) == GetSaleById(db, other)
  {
  }
}

=== FILE: sale_update_findings.dfy ===
/**
  Three defects of `updateSale`, each shown on a concrete state, and a
  corrected update that keeps the ledger balanced:

  1. The stock guard compares the stock with the sale's previous quantity
     instead of the additional units taken, so stock can go negative, and a
     decrease on low stock is silently not applied.
  2. The sale's product id is replaced before the product is looked up, so a
     change of product neither returns the units to the old product nor takes
     the full quantity from the new one.
  3. Unlike `createSale`, the update accepts a zero or negative quantity.
 */
module SaleUpdateFindings {
  import opened Options
  import opened JavaInt
  import opened Entities
  import opened Repository
  import opened Pricing
  import opened Ledger
  import SaleService

  /** One product with 5 units in stock and one sale of 3 of them. */
  function SmallShop(): (db: Db)
    ensures Valid(db) && Healthy(db)
  {
    Db(map[1 := Product("pen", "blue", 2.0, 5)], map[2 := Sale(1, 3, 6.0, 0)], 3)
  }

  /** Defect 1: raising the sale from 3 to 10 units passes the guard (5 >= 3)
      although only 5 units are in stock, and leaves the stock at -2. */
  lemma StockGoesNegative()
    ensures var after := SaleService.UpdateSale(SmallShop(), 2, SaleDto(0, 1, 10, 0.0, 0), 7).db;
            && after.products[1].stock == -2
            && !Healthy(after)
  {
  }

  /** Defect 3: setting the quantity to -4 is accepted, records a sale of -4
      units with a negative value, and puts 7 units back into stock. */
  lemma NonPositiveQuantityAccepted()
    ensures var r := SaleService.UpdateSale(SmallShop(), 2, SaleDto(0, 1, -4, 0.0, 0), 7);
            && r.reply.Some?
            && r.reply.value.quantity == -4
            && r.reply.value.saleValue < 0.0
            && r.db.products[1].stock == 12
            && !Healthy(r.db)
  {
  }

  /** One sold-out product and one sale of 5 units of it. */
  function SoldOut(): (db: Db)
    ensures Valid(db) && Healthy(db)
  {
    Db(map[1 := Product("pen", "blue", 2.0, 0)], map[2 := Sale(1, 5, 10.0, 0)], 3)
  }

  /** Defect 1, other side: lowering the sale from 5 to 3 units fails the
      guard (0 >= 5 is false), yet the update still answers with the sale,
      which keeps its 5 units while the stock stays at 0. The corrected update
      stores 3 units and returns 2 to stock. */
  lemma GuardRefusesDecrease()
    ensures var dto := SaleDto(0, 1, 3, 0.0, 0);
            var asWritten := SaleService.UpdateSale(SoldOut(), 2, dto, 7);
            var corrected := UpdateSaleCorrected(SoldOut(), 2, dto, 7);
            && asWritten.reply.Some?
            && asWritten.reply.value.quantity == 5
            && asWritten.db.products[1].stock == 0
            && corrected.reply.Some?
            && corrected.reply.value.quantity == 3
            && corrected.db.products[1].stock == 2
  {
  }

  /** Two products with 10 units each and one sale of 5 units of product 1. */
  function TwoProducts(): (db: Db)
    ensures Valid(db) && Healthy(db)
  {
    Db(map[1 := Product("pen", "blue", 2.0, 10), 2 := Product("ink", "black", 3.0, 10)],
       map[3 := Sale(1, 5, 10.0, 0)], 4)
  }

  /** Defect 2: moving the sale of 5 units from product 1 to product 2 leaves
      both stocks at 10, so product 1 loses 5 units of holdings and product 2
      gains 5. */
  lemma ProductSwitchBreaksConservation()
    ensures var after := SaleService.UpdateSale(TwoProducts(), 3, SaleDto(0, 2, 5, 0.0, 0), 7).db;
            && after.products == TwoProducts().products
            && Holdings(after, 1) == Holdings(TwoProducts(), 1) - 5
            && Holdings(after, 2) == Holdings(TwoProducts(), 2) + 5
            && !Conserves(TwoProducts(), after)
  {
  }

  /** The stock `pid` is left with once `q0` units go back to product `p0`
      and `q1` units are taken from product `p1`. */
  function Shifted(products: map<Id, Product>, pid: Id, p0: Id, q0: int, p1: Id, q1: int): int
    requires pid in products
  {
    products[pid].stock + (if pid == p0 then q0 else 0) - (if pid == p1 then q1 else 0)
  }

  /** `pid` is absent, or its shifted stock is a non-negative Java `int`. */
  predicate Fits(products: map<Id, Product>, pid: Id, p0: Id, q0: int, p1: Id, q1: int) {
    pid in products ==> 0 <= Shifted(products, pid, p0, q0, p1, q1) <= MaxInt32
  }

  /** Return `q0` units to `p0` and take `q1` units from `p1`, if both
      resulting stock levels are non-negative and representable. */
  function Transfer(products: map<Id, Product>, p0: Id, q0: int, p1: Id, q1: int): (r: Option<map<Id, Product>>)
    ensures r.Some? <==> Fits(products, p0, p0, q0, p1, q1) && Fits(products, p1, p0, q0, p1, q1)
    ensures r.Some? ==>
      && r.value.Keys == products.Keys
      && forall pid :: pid in products ==>
           && r.value[pid].stock == Shifted(products, pid, p0, q0, p1, q1)
           && r.value[pid] == products[pid].(stock := r.value[pid].stock)
  {
    if Fits(products, p0, p0, q0, p1, q1) && Fits(products, p1, p0, q0, p1, q1) then
      var returned :=
        if p0 in products then products[p0 := products[p0].(stock := Shifted(products, p0, p0, q0, p1, q1))]
        else products;
      var taken :=
        if p1 in products then returned[p1 := products[p1].(stock := Shifted(products, p1, p0, q0, p1, q1))]
        else returned;
      Some(taken)
    else
      None
  }

  /** The update the source evidently intends. An unknown sale, a non-positive
      quantity, an unknown target product, or stock that cannot cover the
      change leaves everything as it was and returns `None`. Otherwise the
      sale's previous units go back to its previous product, the new quantity
      is taken from the new product, and the sale is repriced at that
      product's price; an update that changes neither product nor quantity
      only refreshes the date. */
  function UpdateSaleCorrected(db: Db, id: Id, dto: SaleDto, now: Timestamp): (r: Response<Option<SaleDto>>)
    ensures id !in db.sales || dto.quantity <= 0 ==> r == Response(None, db)
    ensures id in db.sales && dto.quantity > 0 ==>
      var prior := db.sales[id];
      r.reply.Some? <==>
        || (dto.idProduct == prior.idProduct && dto.quantity == prior.quantity)
        || (&& dto.idProduct in db.products
            && Fits(db.products, prior.idProduct, prior.idProduct, prior.quantity, dto.idProduct, dto.quantity)
            && Fits(db.products, dto.idProduct, prior.idProduct, prior.quantity, dto.idProduct, dto.quantity))
    ensures r.reply.None? ==> r.db == db
    ensures r.reply.Some? ==>
      && id in db.sales
      && r.reply.value.id == id
      && r.reply.value.idProduct == dto.idProduct
      && r.reply.value.quantity == dto.quantity
      && r.reply.value.date == now
      && r.db.sales == db.sales[id := SaleOf(r.reply.value)]
      && r.db.nextId == db.nextId
    ensures r.reply.Some? && (dto.idProduct != db.sales[id].idProduct || dto.quantity != db.sales[id].quantity) ==>
      && dto.idProduct in db.products
      && r.reply.value.saleValue == SaleValue(db.products[dto.idProduct].price, dto.quantity)
    ensures r.reply.Some? && dto.idProduct == db.sales[id].idProduct && dto.quantity == db.sales[id].quantity ==>
      r.reply.value.saleValue == db.sales[id].saleValue
    ensures r.reply.Some? ==>
      && r.db.products.Keys == db.products.Keys
      && forall pid :: pid in db.products ==>
           r.db.products[pid] == db.products[pid].(stock := Shifted(db.products, pid,
             db.sales[id].idProduct, db.sales[id].quantity, dto.idProduct, dto.quantity))
  {
    if id !in db.sales || dto.quantity <= 0 then Response(None, db)
    else
      var prior := db.sales[id];
      if dto.idProduct == prior.idProduct && dto.quantity == prior.quantity then
        var saved := prior.(date := now);
        Response(Some(SaleDtoOf(id, saved)), db.(sales := db.sales[id := saved]))
      else if dto.idProduct !in db.products then Response(None, db)
      else
        match Transfer(db.products, prior.idProduct, prior.quantity, dto.idProduct, dto.quantity)
        case None => Response(None, db)
        case Some(products) =>
          var saved := Sale(dto.idProduct, dto.quantity, SaleValue(db.products[dto.idProduct].price, dto.quantity), now);
          Response(Some(SaleDtoOf(id, saved)), db.(products := products, sales := db.sales[id := saved]))
  }

  /** Fix of defects 1 and 3: the corrected update keeps a healthy state healthy. */
  lemma CorrectedKeepsHealthy(db: Db, id: Id, dto: SaleDto, now: Timestamp)
    requires Healthy(db)
    ensures Healthy(UpdateSaleCorrected(db, id, dto, now).db)
  {
  }

  /** Fix of defect 2: whatever the update changes, every product's holdings
      are the same before and after. */
  lemma CorrectedConserves(db: Db, id: Id, dto: SaleDto, now: Timestamp)
    requires Valid(db)
    ensures Conserves(db, UpdateSaleCorrected(db, id, dto, now).db)
  {
    var r := UpdateSaleCorrected(db, id, dto, now);
    if r.reply.Some? {
      var prior := db.sales[id];
      forall pid | pid in db.products && pid in r.db.products
        ensures Holdings(r.db, pid) == Holdings(db, pid)
      {
        SoldAfterWrite(db, r.db, id, r.db.sales[id], pid);
        if dto.idProduct != prior.idProduct || dto.quantity != prior.quantity {
          assert r.db.products[pid].stock
              == Shifted(db.products, pid, prior.idProduct, prior.quantity, dto.idProduct, dto.quantity);
        }
      }
    }
  }

  /** Where the source is right the corrected update does exactly what the
      source does, in any state: for an unknown sale, for an update that
      changes nothing and keeps a positive quantity, and for a positive new
      quantity of the same product that the source's own guard lets through
      and that leaves a non-negative `int` stock. */
  lemma CorrectedAgreesWhenProductKept(db: Db, id: Id, dto: SaleDto, now: Timestamp)
    requires id in db.sales ==>
      && dto.idProduct == db.sales[id].idProduct
      && dto.quantity > 0
      && (|| dto.quantity == db.sales[id].quantity
          || (&& SaleService.UpdateGuard(db, dto.idProduct, db.sales[id].quantity)
              && 0 <= db.products[dto.idProduct].stock - (dto.quantity - db.sales[id].quantity) <= MaxInt32))
    ensures UpdateSaleCorrected(db, id, dto, now) == SaleService.UpdateSale(db, id, dto, now)
  {
  }
}
